=== FILE: README.md ===
# Key/value index generator — a Dafny model

This project models the index generator of `lib/kv/governance.ts`. The generator turns a nested
record (an *entity*) into composite keys (`KeySpace`, a sequence of `KeySpacePart`) for an
ordered key-value store. It has three parts, and the model has one module for each:

- **`keysValues`** (module `Flatten`) walks a record depth first, in field order. Every
  non-null object is recursed into, and every other value is a leaf. Each leaf yields one
  `{keys, value}` record, keyed `keysPrefix ++ path-of-field-names`. An optional `keys` hook
  can replace that key or drop the leaf by answering `false`. An optional `value` hook can
  replace the value unless its answer is nullish.
- **`entityKeysValues`** (module `Materialize`) is the eager materialiser. It emits one
  ENTITY_ID record, then one ENTITY_PROP record per leaf (key `marker ++ id ++ path`, value
  the leaf), then one PROP_INDEX record per leaf (key `marker ++ path ++ [leaf] ++ id`, value
  the whole entity). By default the marker is `scope ++ ["$" + nature]` and the identity is
  the entity's JSON text.
- **`entityIndexKeys`** (module `LazyIndex`) is the lazy counterpart. It builds a tree with the
  entity's shape. At every leaf it places three key builders (`entityID`, `entityProp`,
  `propIndex`) that close over that leaf's path.

Supporting modules:

- `KeySpaces` holds key parts, the three natures and the default marker.
- `Records` holds entities and the reference enumeration `Leaves` of their scalar leaves.
- `Json` holds the default identity, including the TypeError `JSON.stringify` raises on a bigint.
- `Wrappers` holds `Option` and `Result`.

Representation choices:

- A record is a sequence of `(name, value)` pairs, already in property-enumeration order
  (section 10.1.11.1 of ECMA-262). Arrays are records keyed `"0"`, `"1"`, and so on.
- A `Value` is either `Leaf(Scalar)` or `Obj(Record)`. A `Scalar` is any key part except a byte
  array, because a `Uint8Array` is an object to `typeof` and so is never a leaf.
- `KeyPart` also has `Null` and `Undefined`. The declared union has neither, but the
  PROP_INDEX key hook (line 94) pushes the raw leaf into the key, and that leaf may be null.
- Hooks are optional function parameters (`Option<...>`). An absent hook is `None`.

The central results:

- `Flatten.KeysValuesIsEmitAll`: the flattener emits exactly what the reference leaf list
  emits, leaf by leaf through the hooks.
- `Materialize.EntityRecordsLayout`: once the identity is known (a successful
  `EntityKeysValues` returns `EntityRecords` for the index policy, scope and identity in force),
  there are exactly `1 + 2L` records, and the lemma gives each one's key and value.
- `LazyIndex.EagerLazyAgreement`: for a scope hook that ignores its argument, a builder tree made
  once from a template rebuilds, leaf by leaf, the eager keys of every entity of the template's
  shape (`LazyIndex.BuildKeysShapeOnly`: the tree depends only on the shape).

Four behaviours of the code shape the model:

- The flattener has no cycle detection. Dafny datatypes are finite, so a cyclic entity cannot
  be written in the model.
- Any identity is accepted, including an empty one. The only failure is the TypeError that the
  default identity (`JSON.stringify`) raises on a bigint.
- The flattener (line 41) recurses into every non-null object, dates and blobs included.
- The lazy builder applies the scope hook to the sub-record that directly holds the leaf
  (line 137, where the parameter `entity` shadows the root). The eager materialiser applies it
  to the root (line 77). So eager and lazy keys agree only for a scope hook that ignores its
  argument. `LazyIndex.ScopeHookSeesInnerRecord` exhibits an input where the two disagree.

## Model

| member | source | states |
|---|---|---|
| KeySpaces.NaturesEnumerated | lib/kv/governance.ts:56-61 | the nature list names every one of the three natures, each exactly once |
| KeySpaces.MarkersDistinct | lib/kv/governance.ts:74-75 | the default markers `"$" + nature` of two natures are equal exactly when the natures are |
| KeySpaces.MarkerRoundTrip | lib/kv/governance.ts:74-75 | a nature can be read back from its marker, and only its own marker reads back as it |
| KeySpaces.DefaultIndexKeysShape | lib/kv/governance.ts:74-75 | a default-policy key keeps the scope keys as its prefix, and its nature can be read back right after the scope keys |
| Records.LeavesCount | lib/kv/governance.ts:37-50 | the depth-first leaf list has one entry per scalar leaf, and every leaf path has at least one field name |
| Json.MembersFailure | lib/kv/governance.ts:78-79 | serialising a record fails exactly when some leaf anywhere in it is a bigint |
| Json.Stringify | lib/kv/governance.ts:79 | the default identity text exists unless the entity holds a bigint, in which case the TypeError is raised |
| Flatten.KeysValues | lib/kv/governance.ts:27-54 | at most one record per leaf; exactly one per leaf when the key hook never answers `false`; without a key hook, every key strictly extends `keysPrefix` |
| Flatten.KeysValuesIsEmitAll | lib/kv/governance.ts:37-53 | the output equals the leaves, taken depth first in field order, each passed through the hooks under default key `keysPrefix ++ path`; objects are never emitted themselves |
| Flatten.KeysValuesNoSkip | lib/kv/governance.ts:44-49 | when the hook never rejects, record i belongs to leaf i: the hook's key if it gives one, else the default; the value hook's result unless nullish, else the leaf |
| Flatten.KeysValuesOneLeaf | lib/kv/governance.ts:44-49 | for a record with one scalar field, the key hook sees `keysPrefix ++ [name]` and the leaf; answering `false` yields no record; otherwise one record, keyed by the hook's keys or else the default key, valued by the value hook's answer unless nullish, else the leaf |
| Flatten.KeysValuesDefault | lib/kv/governance.ts:39-48 | without hooks, record i is leaf i under key `keysPrefix ++ path`, one part longer than `keysPrefix` per level of depth, and its value is the leaf itself |
| Flatten.KeysValuesCount | lib/kv/governance.ts:44-45 | the number of records is the number of leaves the key hook does not reject |
| Flatten.KeysValuesReject | lib/kv/governance.ts:44-47 | a hook that only rejects removes exactly the rejected leaves' records; every other record and the order stay as without the hook |
| Materialize.IdentityKeys | lib/kv/governance.ts:78-79 | the identity is the hook's answer, or a single string part; it fails exactly when the default is needed and the entity holds a bigint |
| Materialize.EntityKeysValues | lib/kv/governance.ts:63-99 | fails exactly when the default identity meets a bigint; otherwise yields `1 + 2L` records for L leaves |
| Materialize.PropIndexRecords | lib/kv/governance.ts:90-97 | the secondary-index pass gives leaf i the key `prefix ++ path ++ [leaf] ++ id` and the whole entity as value |
| Materialize.PropIndexHooks | lib/kv/governance.ts:93-96 | the hooks of the secondary-index pass (`PropIndexOptions`) never drop a leaf, and give each leaf the key `default key ++ [leaf] ++ id` and the whole entity as value |
| Materialize.EntityRecords | lib/kv/governance.ts:81-98 | once the index policy, scope keys and identity keys are fixed, the records number one for the identity plus two per leaf |
| Materialize.EntityRecordsLayout | lib/kv/governance.ts:81-98 | for any index policy, scope and identity: record 0 is `indexKeys(ENTITY_ID, scope) ++ id` with the entity; record 1+i is `indexKeys(ENTITY_PROP, scope) ++ id ++ path_i` with leaf i; record 1+L+i is `indexKeys(PROP_INDEX, scope) ++ path_i ++ [leaf_i] ++ id` with the entity |
| Materialize.DefaultPrefixIsolation | lib/kv/governance.ts:74-98 | with the default markers, for any scope and identity, every key starts with the scope keys followed by its own nature's marker, so records of different natures differ at the part right after the scope keys |
| Materialize.AdaExample | lib/kv/governance.ts:63-99 | `{name: "Ada", address: {city: "London"}}` with identity `["e1"]` gives exactly the five expected records in order |
| LazyIndex.BuildKeys | lib/kv/governance.ts:128-159 | the built tree has the record's field names in order, with a nested object exactly where the record has one, at every depth |
| LazyIndex.EntityIndexKeys | lib/kv/governance.ts:112-162 | the result mirrors the entity's shape |
| LazyIndex.LazyLeavesAlign | lib/kv/governance.ts:133-155 | the builder leaves follow the entity's leaves in order: same paths, builders over `prefix ++ path`, with the scope of the record directly holding the leaf |
| LazyIndex.EntityIdUniform | lib/kv/governance.ts:140-141 | for a scope hook that ignores its argument, every leaf's `entityID(...id)` is `indexKeys(ENTITY_ID, scope) ++ id` with the root's scope, the same for all leaves |
| LazyIndex.BuildKeysShapeOnly | lib/kv/governance.ts:128-159 | for a scope hook that ignores its argument, two records with the same field names and nesting get the same builder tree, whatever their leaf values |
| LazyIndex.EagerLazyAgreement | lib/kv/governance.ts:137-153 | for a scope hook that ignores its argument, a tree built once from a template, any entity of the template's shape and any identity keys `id`: at leaf i, `entityID(id)`, `entityProp(id)` and `propIndex(v, ...id)` with `v` the entity's i-th leaf equal the keys of the entity's eager ENTITY_ID, ENTITY_PROP and PROP_INDEX records of that leaf |
| LazyIndex.EntityPropAgrees | lib/kv/governance.ts:142-147 | for a scope hook that ignores its argument, the `entityProp` builder (`IndexSuppliers.EntityProp`) of leaf i of a tree built from a template, given the identity keys, yields the key of the ENTITY_PROP record of leaf i of any entity of the same shape: `indexKeys(ENTITY_PROP, scope) ++ id ++ path_i` |
| LazyIndex.PropIndexAgrees | lib/kv/governance.ts:148-153 | for a scope hook that ignores its argument, the `propIndex` builder (`IndexSuppliers.PropIndex`) of leaf i of a tree built from a template, given a value `v` and then the identity keys, yields the key of the PROP_INDEX record of leaf i of any entity of the same shape whose i-th leaf is `v`: `indexKeys(PROP_INDEX, scope) ++ path_i ++ [v] ++ id` |
| LazyIndex.ScopeHookSeesInnerRecord | lib/kv/governance.ts:137 | for `{a: {b: 1}}` and a scope hook that reads its argument, the eager property key is scoped `"a"` but the lazy one `"b"` |

## Left out

- render/dml/insert.ts is not part of this model. It builds SQL text, and its behaviour depends on naming, quoting and shape-checking collaborators that are not part of this model.
- support/docs-nextra/theme.config.jsx is not part of this model. It configures the documentation site and has no logic.
- Fields holding functions or symbols are leaves in the code (lines 41-43) and are not modelled. A scalar here is a string, number, bigint, boolean, null or undefined.
- Numbers are modelled as integers. Floating-point values, NaN, infinities and their JSON forms are not modelled.
- The JSON text is simplified. Arrays (which are records here) render as objects. `toJSON` methods are not modelled. The text is used only as an opaque identity part, and its one failure (bigint) is modelled exactly.
- The byte encoding and ordering of key parts belong to the store client. Parts are abstract values here.
- `Date`, `RegExp`, `Blob`, `Map` and `Set` values have no enumerable fields, so a caller writes them as `Obj([])`. They contribute no leaf, as in the code. A `Uint8Array` inside an entity is written as the record of its index fields.
- Inherited enumerable properties that `for...in` would also visit are not modelled. Records list own fields only.
- Nullish answers from the `scopeKeys` and `identityKeys` hooks are not modelled. The `??` fallbacks are modelled only for absent hooks. Nullish answers from the `keys` and `value` hooks of `keysValues` are modelled.
- A `keys` hook answering `true` is excluded by its declared type and is not modelled.
- The lazy builders call `indexKeys` when invoked. The model takes the three prefixes when the builders are made. This gives the same keys on the assumption that `indexKeys` is a pure function of its arguments. The default policy (lines 74-75, 125-126) is pure; a caller's policy need not be.
- All hooks (`keys`, `value`, `scopeKeys`, `identityKeys`, `indexKeys`) are modelled as pure total functions. Hooks with state, or that mutate their arguments, are not modelled. For example, a `keys` hook that mutates the `newKeysPrefix` array it is handed (line 44) and answers `undefined` changes the default key emitted at line 47. And a stateful `scopeKeys` or `indexKeys` hook can tell apart the per-leaf calls of line 137 and the per-call `indexKeys` of the builders.
- The mapped type `EntityIndexKeys` and the generic casts are type-level only.
- Cyclic inputs cannot be written as finite datatypes. The code does not detect them either.
- LazyIndex.BuildKeysShapeOnly: stated only for scope hooks that ignore their argument. A hook that reads the record it is given can make the tree depend on leaf values.
- LazyIndex.EntityIdUniform: stated only for scope hooks that ignore their argument (including the default). With any other hook the code scopes each leaf's `entityID` by the record holding that leaf, so the builders of different leaves can differ.
- LazyIndex.EagerLazyAgreement: stated only for scope hooks that ignore their argument (including the default). With any other hook the code scopes lazy keys by the inner record, and `LazyIndex.ScopeHookSeesInnerRecord` shows such an input.

=== FILE: flatten.dfy ===
/**
 * The recursive flattener `keysValues`: walks a record depth first in field
 * order, carries the path of field names, and emits one key/value record per
 * scalar leaf, subject to an optional key hook and value hook.
 */
module Flatten {
  import opened Wrappers
  import opened KeySpaces
  import opened Records

  /**
   * What the key hook says about a leaf: drop it (`false`), use these keys, or
   * nothing usable (`null`/`undefined`), in which case the default key stands.
   */
  datatype KeyChoice = Skip | Keep(keys: KeySpace) | Nullish

  /** The optional hooks; an absent hook is `None`. */
  datatype Options = Options(
    keys: Option<(KeySpace, Scalar) -> KeyChoice>,
    value: Option<Scalar -> Value>)

  const NoOptions: Options := Options(None, None)

  /** One emitted record. */
  datatype KeysValue = KeysValue(keys: KeySpace, value: Value)

  /** The key hook's verdict on a leaf; an absent hook yields nothing. */
  function Choice(path: KeySpace, leaf: Scalar, options: Options): KeyChoice {
    if options.keys.Some? then options.keys.value(path, leaf) else Nullish
  }

  /** The value hook's result, unless it is absent or nullish; then the raw leaf. */
  function EmittedValue(leaf: Scalar, options: Options): Value {
    if options.value.None? then Leaf(leaf)
    else
      var v := options.value.value(leaf);
      if v == Leaf(Null) || v == Leaf(Undefined) then Leaf(leaf) else v
  }

  /** The records one leaf contributes, given its default key `path`. */
  function Emit(path: KeySpace, leaf: Scalar, options: Options): seq<KeysValue> {
    var choice := Choice(path, leaf, options);
    if choice.Skip? then []
    else [KeysValue(if choice.Keep? then choice.keys else path, EmittedValue(leaf, options))]
  }

  /** No leaf is ever dropped by the key hook. */
  ghost predicate NeverSkips(options: Options) {
    options.keys.Some? ==> forall k, leaf :: !options.keys.value(k, leaf).Skip?
  }

  /**
   * `keysValues(input, keysPrefix, options)`. Objects are recursed into with the
   * field name appended to the prefix; scalars are emitted through the hooks.
   */
  function KeysValues(input: Record, keysPrefix: KeySpace, options: Options): (result: seq<KeysValue>)
    ensures |result| <= LeafCount(input)
    ensures NeverSkips(options) ==> |result| == LeafCount(input)
    ensures options.keys.None? ==>
      forall i :: 0 <= i < |result| ==>
        |keysPrefix| < |result[i].keys| && result[i].keys[..|keysPrefix|] == keysPrefix
    decreases input
  {
    if |input| == 0 then []
    else
      var (key, value) := input[0];
      assert value < input[0];
      var newKeysPrefix := keysPrefix + [Text(key)];
      var here := match value
        case Obj(sub) => KeysValues(sub, newKeysPrefix, options)
        case Leaf(p) => Emit(newKeysPrefix, p, options);
      var rest := KeysValues(input[1..], keysPrefix, options);
      assert forall i :: 0 <= i < |here| && options.keys.None? ==>
        here[i].keys[..|keysPrefix|] == newKeysPrefix[..|keysPrefix|] == keysPrefix;
      here + rest
  }

  /**
   * Reference semantics: the records of a list of leaves, each leaf passed
   * through the hooks with default key `keysPrefix ++ path`.
   */
  function EmitAll(ls: seq<LeafAt>, keysPrefix: KeySpace, options: Options): seq<KeysValue>
    decreases |ls|
  {
    if |ls| == 0 then []
    else Emit(keysPrefix + PathKeys(ls[0].path), ls[0].value, options) + EmitAll(ls[1..], keysPrefix, options)
  }

  lemma {:induction false} EmitAllAppend(a: seq<LeafAt>, b: seq<LeafAt>, keysPrefix: KeySpace, options: Options)
    ensures EmitAll(a + b, keysPrefix, options) == EmitAll(a, keysPrefix, options) + EmitAll(b, keysPrefix, options)
    decreases |a|
  {
    if |a| > 0 {
      assert (a + b)[0] == a[0];
      assert (a + b)[1..] == a[1..] + b;
      EmitAllAppend(a[1..], b, keysPrefix, options);
    } else {
      assert a + b == b;
    }
  }

  lemma {:induction false} EmitAllUnder(name: string, ls: seq<LeafAt>, keysPrefix: KeySpace, options: Options)
    ensures EmitAll(Under(name, ls), keysPrefix, options) == EmitAll(ls, keysPrefix + [Text(name)], options)
    decreases |ls|
  {
    if |ls| > 0 {
      var u := Under(name, ls);
      assert u[1..] == Under(name, ls[1..]);
      assert keysPrefix + PathKeys(u[0].path) == keysPrefix + [Text(name)] + PathKeys(ls[0].path);
      EmitAllUnder(name, ls[1..], keysPrefix, options);
    }
  }

  /**
   * The flattener emits exactly what its leaves, taken depth first in field
   * order, emit one at a time: objects are never emitted themselves, a skipped
   * leaf contributes nothing and changes nothing else.
   */
  lemma {:induction false} KeysValuesIsEmitAll(input: Record, keysPrefix: KeySpace, options: Options)
    ensures KeysValues(input, keysPrefix, options) == EmitAll(Leaves(input), keysPrefix, options)
    decreases input
  {
    if |input| > 0 {
      var (key, value) := input[0];
      assert value < input[0];
      var newKeysPrefix := keysPrefix + [Text(key)];
      KeysValuesIsEmitAll(input[1..], keysPrefix, options);
      match value
      case Leaf(p) =>
        var here := [LeafAt([key], p)];
        EmitAllAppend(here, Leaves(input[1..]), keysPrefix, options);
        assert keysPrefix + PathKeys([key]) == newKeysPrefix;
        assert EmitAll(here, keysPrefix, options) == Emit(newKeysPrefix, p, options);
      case Obj(sub) =>
        KeysValuesIsEmitAll(sub, newKeysPrefix, options);
        EmitAllUnder(key, Leaves(sub), keysPrefix, options);
        EmitAllAppend(Under(key, Leaves(sub)), Leaves(input[1..]), keysPrefix, options);
    }
  }

  /** The key a leaf gets when it is not skipped. */
  function ChosenKeys(path: KeySpace, leaf: Scalar, options: Options): KeySpace {
    var choice := Choice(path, leaf, options);
    if choice.Keep? then choice.keys else path
  }

  lemma {:induction false} EmitAllNoSkip(ls: seq<LeafAt>, keysPrefix: KeySpace, options: Options)
    requires NeverSkips(options)
    ensures var r := EmitAll(ls, keysPrefix, options);
      && |r| == |ls|
      && forall i :: 0 <= i < |ls| ==>
        r[i] == KeysValue(ChosenKeys(keysPrefix + PathKeys(ls[i].path), ls[i].value, options),
                          EmittedValue(ls[i].value, options))
    decreases |ls|
  {
    if |ls| > 0 {
      EmitAllNoSkip(ls[1..], keysPrefix, options);
      var r := EmitAll(ls, keysPrefix, options);
      forall i | 0 <= i < |ls|
        ensures r[i] == KeysValue(ChosenKeys(keysPrefix + PathKeys(ls[i].path), ls[i].value, options),
                                  EmittedValue(ls[i].value, options))
      {
        if i > 0 {
          assert ls[1..][i - 1] == ls[i];
        }
      }
    }
  }

  /**
   * When the key hook never drops a leaf, the i-th record belongs to the i-th
   * leaf: its key is the hook's (or, failing that, `keysPrefix ++ path`) and its
   * value the value hook's (or, failing that, the leaf).
   */
  lemma KeysValuesNoSkip(input: Record, keysPrefix: KeySpace, options: Options)
    requires NeverSkips(options)
    ensures var r := KeysValues(input, keysPrefix, options);
      var ls := Leaves(input);
      && |r| == |ls|
      && forall i :: 0 <= i < |ls| ==>
        r[i] == KeysValue(ChosenKeys(keysPrefix + PathKeys(ls[i].path), ls[i].value, options),
                          EmittedValue(ls[i].value, options))
  {
    KeysValuesIsEmitAll(input, keysPrefix, options);
    EmitAllNoSkip(Leaves(input), keysPrefix, options);
  }

  /**
   * A record holding one scalar field: the key hook sees the default key
   * `keysPrefix ++ [name]` and the leaf. Answering `false` drops the leaf;
   * otherwise one record follows, keyed by the hook's keys or, when it has
   * none, by the default key, and valued by the value hook's answer unless
   * that is nullish, else by the leaf itself.
   */
  lemma KeysValuesOneLeaf(name: string, leaf: Scalar, keysPrefix: KeySpace, options: Options)
    ensures var r := KeysValues([(name, Leaf(leaf))], keysPrefix, options);
      var path := keysPrefix + [Text(name)];
      var answer := if options.keys.Some? then options.keys.value(path, leaf) else Nullish;
      && (answer.Skip? <==> r == [])
      && (!answer.Skip? ==> |r| == 1 && r[0].keys == (if answer.Keep? then answer.keys else path))
      && (!answer.Skip? && options.value.None? ==> r[0].value == Leaf(leaf))
      && (!answer.Skip? && options.value.Some? ==>
            var v := options.value.value(leaf);
            r[0].value == (if v == Leaf(Null) || v == Leaf(Undefined) then Leaf(leaf) else v))
  {
  }

  /**
   * Without hooks, the i-th record is the i-th leaf under key
   * `keysPrefix ++ path`: one record per leaf, keys of length
   * `|keysPrefix| + depth`, and never an object as value.
   */
  lemma KeysValuesDefault(input: Record, keysPrefix: KeySpace)
    ensures var r := KeysValues(input, keysPrefix, NoOptions);
      var ls := Leaves(input);
      && |r| == |ls| == LeafCount(input)
      && forall i :: 0 <= i < |ls| ==>
        && r[i] == KeysValue(keysPrefix + PathKeys(ls[i].path), Leaf(ls[i].value))
        && |r[i].keys| == |keysPrefix| + |ls[i].path| > |keysPrefix|
        && r[i].keys[..|keysPrefix|] == keysPrefix
  {
    KeysValuesNoSkip(input, keysPrefix, NoOptions);
    LeavesCount(input);
    var r := KeysValues(input, keysPrefix, NoOptions);
    var ls := Leaves(input);
    forall i | 0 <= i < |ls|
      ensures r[i].keys[..|keysPrefix|] == keysPrefix
    {
      assert r[i].keys == keysPrefix + PathKeys(ls[i].path);
    }
  }

  /** How many leaves of the list the key hook keeps. */
  function KeptCount(ls: seq<LeafAt>, keysPrefix: KeySpace, options: Options): nat
    decreases |ls|
  {
    if |ls| == 0 then 0
    else
      (if Choice(keysPrefix + PathKeys(ls[0].path), ls[0].value, options).Skip? then 0 else 1)
      + KeptCount(ls[1..], keysPrefix, options)
  }

  lemma {:induction false} EmitAllCount(ls: seq<LeafAt>, keysPrefix: KeySpace, options: Options)
    ensures |EmitAll(ls, keysPrefix, options)| == KeptCount(ls, keysPrefix, options)
    decreases |ls|
  {
    if |ls| > 0 {
      EmitAllCount(ls[1..], keysPrefix, options);
    }
  }

  /** Exactly one record per leaf the key hook does not reject. */
  lemma KeysValuesCount(input: Record, keysPrefix: KeySpace, options: Options)
    ensures |KeysValues(input, keysPrefix, options)| == KeptCount(Leaves(input), keysPrefix, options)
  {
    KeysValuesIsEmitAll(input, keysPrefix, options);
    EmitAllCount(Leaves(input), keysPrefix, options);
  }

  /** A key hook that only rejects: `false` where `drop` holds, otherwise nothing (default key). */
  function RejectWhere(drop: (KeySpace, Scalar) -> bool): (KeySpace, Scalar) -> KeyChoice {
    (k: KeySpace, v: Scalar) => if drop(k, v) then Skip else Nullish
  }

  /** The records whose leaf value `drop` does not reject, in their original order. */
  function Without(rs: seq<KeysValue>, drop: (KeySpace, Scalar) -> bool): seq<KeysValue>
    decreases |rs|
  {
    if |rs| == 0 then []
    else
      var r := rs[0];
      (if r.value.Leaf? && drop(r.keys, r.value.part) then [] else [r]) + Without(rs[1..], drop)
  }

  lemma {:induction false} WithoutAppend(a: seq<KeysValue>, b: seq<KeysValue>, drop: (KeySpace, Scalar) -> bool)
    ensures Without(a + b, drop) == Without(a, drop) + Without(b, drop)
    decreases |a|
  {
    if |a| > 0 {
      assert (a + b)[0] == a[0];
      assert (a + b)[1..] == a[1..] + b;
      WithoutAppend(a[1..], b, drop);
    } else {
      assert a + b == b;
    }
  }

  lemma {:induction false} EmitAllReject(ls: seq<LeafAt>, keysPrefix: KeySpace, drop: (KeySpace, Scalar) -> bool)
    ensures EmitAll(ls, keysPrefix, Options(Some(RejectWhere(drop)), None)) == Without(EmitAll(ls, keysPrefix, NoOptions), drop)
    decreases |ls|
  {
    if |ls| > 0 {
      var path := keysPrefix + PathKeys(ls[0].path);
      var plain := Emit(path, ls[0].value, NoOptions);
      assert plain == [KeysValue(path, Leaf(ls[0].value))];
      assert Without(plain, drop) == Emit(path, ls[0].value, Options(Some(RejectWhere(drop)), None)) by {
        assert plain[1..] == [];
      }
      EmitAllReject(ls[1..], keysPrefix, drop);
      WithoutAppend(plain, EmitAll(ls[1..], keysPrefix, NoOptions), drop);
    }
  }

  /**
   * Skip semantics: a key hook that rejects some leaves (and otherwise keeps
   * the default key) removes exactly their records; every other record, and
   * the order, is as without the hook.
   */
  lemma KeysValuesReject(input: Record, keysPrefix: KeySpace, drop: (KeySpace, Scalar) -> bool)
    ensures KeysValues(input, keysPrefix, Options(Some(RejectWhere(drop)), None))
         == Without(KeysValues(input, keysPrefix, NoOptions), drop)
  {
    KeysValuesIsEmitAll(input, keysPrefix, Options(Some(RejectWhere(drop)), None));
    KeysValuesIsEmitAll(input, keysPrefix, NoOptions);
    EmitAllReject(Leaves(input), keysPrefix, drop);
  }
}

=== FILE: json.dfy ===
/**
 * The default entity identity: the JSON text of the whole entity. Only the
 * behaviour the index depends on is modelled: the text is a deterministic
 * function of the record, and serialisation throws a TypeError as soon as it
 * meets a bigint.
 */
module Json {
  import opened Wrappers
  import opened KeySpaces
  import opened Records

  /** The TypeError JSON serialisation raises for a bigint value. */
  datatype JsonError = BigIntNotSerializable

  function DigitChar(d: nat): char
    requires d < 16
  {
    "0123456789abcdef"[d]
  }

  /** Decimal digits of a natural number, most significant first. */
  function Digits(n: nat): string
    decreases n
  {
    if n < 10 then [DigitChar(n)] else Digits(n / 10) + [DigitChar(n % 10)]
  }

  function Decimal(n: int): string {
    if n < 0 then "-" + Digits(-n) else Digits(n)
  }

  /** JSON string escaping: quote, backslash and control characters. */
  function EscapeChar(c: char): string {
    if c == '"' then "\\\""
    else if c == '\\' then "\\\\"
    else if c == '\n' then "\\n"
    else if c == '\r' then "\\r"
    else if c == '\t' then "\\t"
    else if c as int == 8 then "\\b"
    else if c as int == 12 then "\\f"
    else if (c as int) < 32 then "\\u00" + [DigitChar(c as int / 16), DigitChar(c as int % 16)]
    else [c]
  }

  function Escape(s: string): string
    decreases |s|
  {
    if |s| == 0 then "" else EscapeChar(s[0]) + Escape(s[1..])
  }

  function Quote(s: string): string {
    "\"" + Escape(s) + "\""
  }

  function Join(items: seq<string>): string
    decreases |items|
  {
    if |items| == 0 then ""
    else if |items| == 1 then items[0]
    else items[0] + "," + Join(items[1..])
  }

  /**
   * The JSON text of a scalar. The `Undefined` branch is never reached from
   * `Members`, which omits fields holding `undefined`; it is kept so that the
   * function is total on `Scalar`.
   */
  function ScalarJson(p: Scalar): Result<string, JsonError> {
    match p
    case Null => Success("null")
    case Undefined => Success("null")
    case Text(s) => Success(Quote(s))
    case Num(n) => Success(Decimal(n))
    case Bool(b) => Success(if b then "true" else "false")
    case Big(_) => Failure(BigIntNotSerializable)
  }

  /** The `"name":value` members of a record; fields holding `undefined` are omitted. */
  function Members(r: Record): Result<seq<string>, JsonError>
    decreases r
  {
    if |r| == 0 then Success([])
    else
      var (name, v) := r[0];
      assert v < r[0];
      var head :- match v
        case Leaf(p) =>
          if p == Undefined then Success([])
          else var s :- ScalarJson(p); Success([Quote(name) + ":" + s])
        case Obj(sub) => var ms :- Members(sub); Success([Quote(name) + ":{" + Join(ms) + "}"]);
      var rest :- Members(r[1..]);
      Success(head + rest)
  }

  /** Serialisation fails exactly when some leaf of the record is a bigint. */
  lemma {:induction false} MembersFailure(r: Record)
    ensures Members(r).Failure? <==> ContainsBig(r)
    decreases r
  {
    if |r| > 0 {
      var (name, v) := r[0];
      assert v < r[0];
      MembersFailure(r[1..]);
      var here := match v
        case Leaf(p) => [LeafAt([name], p)]
        case Obj(sub) => Under(name, Leaves(sub));
      assert Leaves(r) == here + Leaves(r[1..]);
      BigAmongAppend(here, Leaves(r[1..]));
      match v
      case Leaf(p) =>
        assert BigAmong(here) <==> p.Big?;
      case Obj(sub) =>
        MembersFailure(sub);
        assert BigAmong(here) <==> BigAmong(Leaves(sub)) by {
          if BigAmong(Leaves(sub)) {
            var i :| 0 <= i < |Leaves(sub)| && Leaves(sub)[i].value.Big?;
            assert here[i].value == Leaves(sub)[i].value;
          }
        }
    }
  }

  /** `JSON.stringify` of an entity: its members between braces, or the bigint error. */
  function Stringify(entity: Record): (r: Result<string, JsonError>)
    ensures r.Failure? <==> ContainsBig(entity)
  {
    MembersFailure(entity);
    var ms :- Members(entity);
    Success("{" + Join(ms) + "}")
  }
}

=== FILE: keyspace.dfy ===
/**
 * The key-space vocabulary of the ordered key/value index: key parts, composite
 * keys, the three index natures and the default nature marker.
 */
module KeySpaces {
  import opened Wrappers

  /**
   * One component of a composite key. The declared union is byte array, string,
   * number, bigint or boolean; `Null` and `Undefined` are here because the
   * secondary index puts the raw leaf value into its key, and a leaf may be null.
   * Numbers are modelled as integers; the store client encodes and orders parts.
   */
  datatype KeyPart =
    | Bytes(bytes: seq<bv8>)
    | Text(text: string)
    | Num(num: int)
    | Big(big: int)
    | Bool(flag: bool)
    | Null
    | Undefined

  /** A composite key: order is significant. */
  type KeySpace = seq<KeyPart>

  /**
   * The values `typeof` does not classify as "object". A byte array is an object,
   * so it is never a leaf of an entity; every other part can be.
   */
  type Scalar = p: KeyPart | !p.Bytes? witness Null

  /** The closed list of index natures. */
  datatype Nature = EntityId | EntityProp | PropIndex

  /** The natures in the order `entityIndexNature` lists them. */
  const Natures: seq<Nature> := [EntityId, EntityProp, PropIndex]

  function NatureName(n: Nature): string {
    match n
    case EntityId => "ENTITY_ID"
    case EntityProp => "ENTITY_PROP"
    case PropIndex => "PROP_INDEX"
  }

  /** The key part the default policy places after the scope keys. */
  function Marker(n: Nature): KeyPart {
    Text("$" + NatureName(n))
  }

  /** The default `indexKeys` policy: the scope keys, then the nature marker. */
  function DefaultIndexKeys(n: Nature, scopeKeys: KeySpace): KeySpace {
    scopeKeys + [Marker(n)]
  }

  /** Reads a nature back from a key part, if the part is one of the three markers. */
  function NatureOfMarker(p: KeyPart): Option<Nature> {
    if p == Marker(EntityId) then Some(EntityId)
    else if p == Marker(EntityProp) then Some(EntityProp)
    else if p == Marker(PropIndex) then Some(PropIndex)
    else None
  }

  /** The nature list names every nature exactly once. */
  lemma NaturesEnumerated()
    ensures forall n: Nature :: n in Natures
    ensures forall i, j :: 0 <= i < j < |Natures| ==> Natures[i] != Natures[j]
  {
    forall n: Nature ensures n in Natures {
      match n
      case EntityId => assert Natures[0] == n;
      case EntityProp => assert Natures[1] == n;
      case PropIndex => assert Natures[2] == n;
    }
  }

  /** Distinct natures get distinct markers, and conversely. */
  lemma MarkersDistinct(a: Nature, b: Nature)
    ensures a != b <==> Marker(a) != Marker(b)
  {
  }

  /** The marker can be read back: `NatureOfMarker` inverts `Marker` exactly. */
  lemma MarkerRoundTrip(n: Nature, p: KeyPart)
    ensures NatureOfMarker(Marker(n)) == Some(n)
    ensures NatureOfMarker(p) == Some(n) ==> p == Marker(n)
  {
  }

  /**
   * Keys built by the default policy keep the scope as a prefix and carry the
   * nature, recoverably, right after it.
   */
  lemma DefaultIndexKeysShape(n: Nature, scopeKeys: KeySpace, rest: KeySpace)
    ensures var k := DefaultIndexKeys(n, scopeKeys) + rest;
      && |k| == |scopeKeys| + 1 + |rest|
      && k[..|scopeKeys|] == scopeKeys
      && NatureOfMarker(k[|scopeKeys|]) == Some(n)
  {
    MarkerRoundTrip(n, Marker(n));
    var k := DefaultIndexKeys(n, scopeKeys) + rest;
    assert k[|scopeKeys|] == Marker(n);
  }
}

=== FILE: lazy_index.dfy ===
/**
 * The lazy counterpart `entityIndexKeys`: a tree with the entity's field names
 * whose leaves hold three key builders closed over that leaf's path.
 */
module LazyIndex {
  import opened Wrappers
  import opened KeySpaces
  import opened Records
  import opened Flatten
  import opened Materialize

  /**
   * The three key builders of one leaf. The closures of `entityIndexKeys` call
   * the `indexKeys` policy when invoked; here its three answers are taken when
   * the builders are made, which yields the same keys provided the policy is a
   * pure function of its arguments, as every hook of this model is.
   */
  datatype IndexSuppliers = IndexSuppliers(
    idPrefix: KeySpace,
    propPrefix: KeySpace,
    indexPrefix: KeySpace,
    pathKeys: KeySpace)
  {
    /** The identity key: the ENTITY_ID prefix, then the identity keys. */
    function EntityID(idKeys: KeySpace): KeySpace {
      idPrefix + idKeys
    }

    /** The property key: the ENTITY_PROP prefix, the identity keys, then the leaf path. */
    function EntityProp(idKeys: KeySpace): KeySpace {
      propPrefix + idKeys + pathKeys
    }

    /** The index key: the PROP_INDEX prefix, the leaf path, then the caller's parts. */
    function PropIndex(idKeys: KeySpace): KeySpace {
      indexPrefix + pathKeys + idKeys
    }
  }

  function Suppliers(indexKeys: IndexKeysHook, scopeKeys: KeySpace, pathKeys: KeySpace): IndexSuppliers {
    IndexSuppliers(indexKeys(EntityId, scopeKeys), indexKeys(EntityProp, scopeKeys), indexKeys(PropIndex, scopeKeys), pathKeys)
  }

  /** A node of the result: a nested object of the same shape, or a leaf's builders. */
  datatype IndexEntry = Nested(fields: seq<(string, IndexEntry)>) | Supply(suppliers: IndexSuppliers)

  type IndexTree = seq<(string, IndexEntry)>

  /** The optional hooks of the lazy builder. */
  datatype LazyOptions = LazyOptions(
    scopeKeys: Option<Record -> KeySpace>,
    indexKeys: Option<IndexKeysHook>)

  /** The tree has the record's field names, in order, with a nested object exactly where the record has one. */
  ghost predicate Mirrors(tree: IndexTree, r: Record)
    decreases r
  {
    && |tree| == |r|
    && forall i :: 0 <= i < |r| ==>
      && tree[i].0 == r[i].0
      && (r[i].1.Obj? <==> tree[i].1.Nested?)
      && (r[i].1.Obj? && tree[i].1.Nested? ==> (assert r[i].1 < r[i]; Mirrors(tree[i].1.fields, r[i].1.fields)))
  }

  /**
   * The inner `buildKeys(entity, prefix)`. `entity` is the record whose field
   * loop is running and `fields` the part of it not yet visited. The scope hook
   * is applied to `entity`, the record directly holding the leaf, not to the root.
   */
  function BuildKeys(fields: Record, entity: Record, prefix: KeySpace, options: LazyOptions): (tree: IndexTree)
    ensures Mirrors(tree, fields)
    decreases fields
  {
    if |fields| == 0 then []
    else
      var (key, value) := fields[0];
      assert value < fields[0];
      var pathKeys := prefix + [Text(key)];
      var entry := match value
        case Obj(sub) => Nested(BuildKeys(sub, sub, pathKeys, options))
        case Leaf(_) =>
          Supply(Suppliers(IndexKeysOf(options.indexKeys), ScopeOf(options.scopeKeys, entity), pathKeys));
      [(key, entry)] + BuildKeys(fields[1..], entity, prefix, options)
  }

  /** `entityIndexKeys(entity, options)`: a tree of the entity's exact shape. */
  function EntityIndexKeys(entity: Record, options: LazyOptions): (tree: IndexTree)
    ensures Mirrors(tree, entity)
  {
    BuildKeys(entity, entity, [], options)
  }

  /** One leaf of the builder tree with the field names leading to it. */
  datatype LazyLeaf = LazyLeaf(path: seq<string>, suppliers: IndexSuppliers)

  function LazyUnder(name: string, ls: seq<LazyLeaf>): (r: seq<LazyLeaf>)
    ensures |r| == |ls|
    ensures forall i :: 0 <= i < |r| ==> r[i] == LazyLeaf([name] + ls[i].path, ls[i].suppliers)
  {
    seq(|ls|, i requires 0 <= i < |ls| => LazyLeaf([name] + ls[i].path, ls[i].suppliers))
  }

  /** The builder leaves of a tree, depth first in field order. */
  function LazyLeaves(tree: IndexTree): seq<LazyLeaf>
    decreases tree
  {
    if |tree| == 0 then []
    else
      var (name, e) := tree[0];
      assert e < tree[0];
      var here := match e
        case Supply(s) => [LazyLeaf([name], s)]
        case Nested(sub) => LazyUnder(name, LazyLeaves(sub));
      here + LazyLeaves(tree[1..])
  }

  /**
   * For each leaf of `Leaves(fields)`, the record that directly holds it
   * (`owner` holds the top-level fields).
   */
  function LeafOwners(fields: Record, owner: Record): seq<Record>
    decreases fields
  {
    if |fields| == 0 then []
    else
      var v := fields[0].1;
      assert v < fields[0];
      var here := match v
        case Leaf(_) => [owner]
        case Obj(sub) => LeafOwners(sub, sub);
      here + LeafOwners(fields[1..], owner)
  }

  /**
   * `lz[i]` is the builder leaf of `ls[i]`: same path, builders over
   * `prefix ++ path` and over the scope of the record `owners[i]`.
   */
  ghost predicate Aligned(lz: seq<LazyLeaf>, ls: seq<LeafAt>, owners: seq<Record>,
                          ik: IndexKeysHook, hook: Option<Record -> KeySpace>, prefix: KeySpace)
  {
    && |lz| == |ls| == |owners|
    && forall i :: 0 <= i < |ls| ==>
      && lz[i].path == ls[i].path
      && lz[i].suppliers == Suppliers(ik, ScopeOf(hook, owners[i]), prefix + PathKeys(ls[i].path))
  }

  lemma AlignedAppend(lz1: seq<LazyLeaf>, ls1: seq<LeafAt>, owners1: seq<Record>,
                      lz2: seq<LazyLeaf>, ls2: seq<LeafAt>, owners2: seq<Record>,
                      ik: IndexKeysHook, hook: Option<Record -> KeySpace>, prefix: KeySpace)
    requires Aligned(lz1, ls1, owners1, ik, hook, prefix)
    requires Aligned(lz2, ls2, owners2, ik, hook, prefix)
    ensures Aligned(lz1 + lz2, ls1 + ls2, owners1 + owners2, ik, hook, prefix)
  {
    var lz, ls, owners := lz1 + lz2, ls1 + ls2, owners1 + owners2;
    forall i | |ls1| <= i < |ls|
      ensures lz[i].path == ls[i].path
      ensures lz[i].suppliers == Suppliers(ik, ScopeOf(hook, owners[i]), prefix + PathKeys(ls[i].path))
    {
      var j := i - |ls1|;
      assert lz[i] == lz2[j] && ls[i] == ls2[j] && owners[i] == owners2[j];
    }
  }

  lemma AlignedUnder(key: string, lz: seq<LazyLeaf>, ls: seq<LeafAt>, owners: seq<Record>,
                     ik: IndexKeysHook, hook: Option<Record -> KeySpace>, prefix: KeySpace)
    requires Aligned(lz, ls, owners, ik, hook, prefix + [Text(key)])
    ensures Aligned(LazyUnder(key, lz), Under(key, ls), owners, ik, hook, prefix)
  {
    forall i | 0 <= i < |ls|
      ensures prefix + PathKeys(Under(key, ls)[i].path) == prefix + [Text(key)] + PathKeys(ls[i].path)
    {
      assert PathKeys([key] + ls[i].path) == [Text(key)] + PathKeys(ls[i].path);
    }
  }

  /**
   * The builder leaves line up with the entity's leaves: same paths in the same
   * order, and the i-th builders close over `prefix ++ path` and over the scope
   * the hook gives for the record directly holding the i-th leaf.
   */
  lemma {:induction false} LazyLeavesAlign(fields: Record, entity: Record, prefix: KeySpace, options: LazyOptions)
    ensures Aligned(LazyLeaves(BuildKeys(fields, entity, prefix, options)), Leaves(fields), LeafOwners(fields, entity),
                    IndexKeysOf(options.indexKeys), options.scopeKeys, prefix)
    decreases fields
  {
    if |fields| > 0 {
      var (key, value) := fields[0];
      assert value < fields[0];
      var ik := IndexKeysOf(options.indexKeys);
      var hook := options.scopeKeys;
      var tree := BuildKeys(fields, entity, prefix, options);
      var rest := BuildKeys(fields[1..], entity, prefix, options);
      LazyLeavesAlign(fields[1..], entity, prefix, options);
      assert tree[1..] == rest;
      var pk := prefix + [Text(key)];
      match value
      case Leaf(p) =>
        var here := [LazyLeaf([key], Suppliers(ik, ScopeOf(hook, entity), pk))];
        assert LazyLeaves(tree) == here + LazyLeaves(rest);
        assert prefix + PathKeys([key]) == pk;
        assert Aligned(here, [LeafAt([key], p)], [entity], ik, hook, prefix);
        AlignedAppend(here, [LeafAt([key], p)], [entity],
                      LazyLeaves(rest), Leaves(fields[1..]), LeafOwners(fields[1..], entity), ik, hook, prefix);
      case Obj(sub) =>
        LazyLeavesAlign(sub, sub, pk, options);
        var subLz := LazyLeaves(BuildKeys(sub, sub, pk, options));
        assert LazyLeaves(tree) == LazyUnder(key, subLz) + LazyLeaves(rest);
        AlignedUnder(key, subLz, Leaves(sub), LeafOwners(sub, sub), ik, hook, prefix);
        AlignedAppend(LazyUnder(key, subLz), Under(key, Leaves(sub)), LeafOwners(sub, sub),
                      LazyLeaves(rest), Leaves(fields[1..]), LeafOwners(fields[1..], entity), ik, hook, prefix);
    }
  }

  /** A scope hook that gives every record the same scope keys (the default gives none). */
  ghost predicate ScopeIgnoresRecord(hook: Option<Record -> KeySpace>) {
    hook.Some? ==> forall a: Record, b: Record :: hook.value(a) == hook.value(b)
  }

  /**
   * With a scope hook that ignores its argument, the builder tree depends only
   * on the record's shape: two records with the same field names and nesting
   * get the same tree, whatever their leaf values.
   */
  lemma {:induction false} BuildKeysShapeOnly(f1: Record, e1: Record, f2: Record, e2: Record,
                                              prefix: KeySpace, options: LazyOptions)
    requires ScopeIgnoresRecord(options.scopeKeys)
    requires SameShape(f1, f2)
    ensures BuildKeys(f1, e1, prefix, options) == BuildKeys(f2, e2, prefix, options)
    decreases f1
  {
    if |f1| > 0 {
      var (key, v1) := f1[0];
      var v2 := f2[0].1;
      assert v1 < f1[0];
      assert SameShape(f1[1..], f2[1..]) by {
        forall i | 0 <= i < |f1[1..]|
          ensures f1[1..][i] == f1[i + 1] && f2[1..][i] == f2[i + 1]
        {
        }
      }
      BuildKeysShapeOnly(f1[1..], e1, f2[1..], e2, prefix, options);
      match v1
      case Obj(sub1) =>
        BuildKeysShapeOnly(sub1, sub1, v2.fields, v2.fields, prefix + [Text(key)], options);
      case Leaf(_) =>
        assert ScopeOf(options.scopeKeys, e1) == ScopeOf(options.scopeKeys, e2);
    }
  }

  /** Every leaf's identity builder is the same builder: the ENTITY_ID prefix of the root's scope, then the identity keys. */
  lemma EntityIdUniform(entity: Record, options: LazyOptions, idKeys: KeySpace)
    requires ScopeIgnoresRecord(options.scopeKeys)
    ensures var lz := LazyLeaves(EntityIndexKeys(entity, options));
      forall i :: 0 <= i < |lz| ==>
        lz[i].suppliers.EntityID(idKeys) ==
          IndexKeysOf(options.indexKeys)(EntityId, ScopeOf(options.scopeKeys, entity)) + idKeys
  {
    LazyLeavesAlign(entity, entity, [], options);
    var owners := LeafOwners(entity, entity);
    forall i | 0 <= i < |owners|
      ensures ScopeOf(options.scopeKeys, owners[i]) == ScopeOf(options.scopeKeys, entity)
    {
    }
  }

  /**
   * The builders at the i-th leaf rebuild the keys of the eager records of that
   * leaf: the identity key, the property key from the identity keys, and the
   * index key from the leaf value followed by the identity keys.
   */
  ghost predicate Agree(rs: seq<KeysValue>, lz: seq<LazyLeaf>, ls: seq<LeafAt>, id: KeySpace) {
    && |lz| == |ls|
    && |rs| == 1 + 2 * |ls|
    && forall i :: 0 <= i < |ls| ==>
      && lz[i].path == ls[i].path
      && lz[i].suppliers.EntityID(id) == rs[0].keys
      && lz[i].suppliers.EntityProp(id) == rs[1 + i].keys
      && lz[i].suppliers.PropIndex([ls[i].value] + id) == rs[1 + |ls| + i].keys
  }

  /**
   * Eager/lazy agreement. The lazy tree is built once from a `template`; for a
   * scope hook that does not depend on the record it is given, any `entity` of
   * the template's shape, and any identity keys, the builders at the i-th leaf
   * rebuild the keys the eager materialiser gives the i-th leaf of `entity`:
   * the identity key, the property key from the identity keys, and the index
   * key from that leaf's value followed by the identity keys.
   */
  lemma EagerLazyAgreement(template: Record, entity: Record, options: LazyOptions, id: KeySpace)
    requires ScopeIgnoresRecord(options.scopeKeys)
    requires SameShape(template, entity)
    ensures Agree(EntityRecords(entity, IndexKeysOf(options.indexKeys), ScopeOf(options.scopeKeys, entity), id),
                  LazyLeaves(EntityIndexKeys(template, options)),
                  Leaves(entity),
                  id)
  {
    BuildKeysShapeOnly(template, template, entity, entity, [], options);
    SelfAgreement(entity, options, id);
  }

  /** Agreement of the tree built from `entity` itself with the eager records of `entity`. */
  lemma SelfAgreement(entity: Record, options: LazyOptions, id: KeySpace)
    requires ScopeIgnoresRecord(options.scopeKeys)
    ensures Agree(EntityRecords(entity, IndexKeysOf(options.indexKeys), ScopeOf(options.scopeKeys, entity), id),
                  LazyLeaves(EntityIndexKeys(entity, options)),
                  Leaves(entity),
                  id)
  {
    var ik := IndexKeysOf(options.indexKeys);
    var scope := ScopeOf(options.scopeKeys, entity);
    var rs := EntityRecords(entity, ik, scope, id);
    var lz := LazyLeaves(EntityIndexKeys(entity, options));
    var ls := Leaves(entity);
    var owners := LeafOwners(entity, entity);
    EntityRecordsLayout(entity, ik, scope, id);
    LazyLeavesAlign(entity, entity, [], options);
    assert Layout(rs, ls, Obj(entity), ik, scope, id);
    assert Aligned(lz, ls, owners, ik, options.scopeKeys, []);
    OwnersShareScope(owners, options.scopeKeys, entity);
    AgreeAll(rs, lz, ls, Obj(entity), owners, ik, options.scopeKeys, scope, id);
  }

  /**
   * The `entityProp` builder of the i-th leaf of a tree built from `template`,
   * given the identity keys, yields the key of the i-th eager ENTITY_PROP
   * record of any `entity` of the template's shape: the ENTITY_PROP prefix of
   * the scope, the identity keys, then the leaf's path.
   */
  lemma EntityPropAgrees(template: Record, entity: Record, options: LazyOptions, id: KeySpace, i: nat)
    requires ScopeIgnoresRecord(options.scopeKeys)
    requires SameShape(template, entity)
    requires i < LeafCount(entity)
    ensures var ik := IndexKeysOf(options.indexKeys);
      var scope := ScopeOf(options.scopeKeys, entity);
      var rs := EntityRecords(entity, ik, scope, id);
      var lz := LazyLeaves(EntityIndexKeys(template, options));
      var ls := Leaves(entity);
      && i < |lz| == |ls| && 1 + i < |rs|
      && lz[i].suppliers.EntityProp(id) == rs[1 + i].keys == ik(EntityProp, scope) + id + PathKeys(ls[i].path)
  {
    var ik := IndexKeysOf(options.indexKeys);
    var scope := ScopeOf(options.scopeKeys, entity);
    EagerLazyAgreement(template, entity, options, id);
    EntityRecordsLayout(entity, ik, scope, id);
  }

  /**
   * The `propIndex` builder of the i-th leaf of a tree built from `template`,
   * given a value `v` and then the identity keys, yields the key of the i-th
   * eager PROP_INDEX record of any `entity` of the template's shape whose i-th
   * leaf is `v`: the PROP_INDEX prefix of the scope, the leaf's path, `v`,
   * then the identity keys.
   */
  lemma PropIndexAgrees(template: Record, entity: Record, options: LazyOptions, id: KeySpace, i: nat)
    requires ScopeIgnoresRecord(options.scopeKeys)
    requires SameShape(template, entity)
    requires i < LeafCount(entity)
    ensures var ik := IndexKeysOf(options.indexKeys);
      var scope := ScopeOf(options.scopeKeys, entity);
      var rs := EntityRecords(entity, ik, scope, id);
      var lz := LazyLeaves(EntityIndexKeys(template, options));
      var ls := Leaves(entity);
      && i < |lz| == |ls| && 1 + |ls| + i < |rs|
      && lz[i].suppliers.PropIndex([ls[i].value] + id) == rs[1 + |ls| + i].keys
         == ik(PropIndex, scope) + PathKeys(ls[i].path) + [ls[i].value] + id
  {
    var ik := IndexKeysOf(options.indexKeys);
    var scope := ScopeOf(options.scopeKeys, entity);
    EagerLazyAgreement(template, entity, options, id);
    EntityRecordsLayout(entity, ik, scope, id);
  }

  lemma OwnersShareScope(owners: seq<Record>, hook: Option<Record -> KeySpace>, entity: Record)
    requires ScopeIgnoresRecord(hook)
    ensures forall i :: 0 <= i < |owners| ==> ScopeOf(hook, owners[i]) == ScopeOf(hook, entity)
  {
  }

  /** The agreement at every leaf, from the eager layout and the lazy alignment. */
  lemma AgreeAll(rs: seq<KeysValue>, lz: seq<LazyLeaf>, ls: seq<LeafAt>, whole: Value, owners: seq<Record>,
                 ik: IndexKeysHook, hook: Option<Record -> KeySpace>, scope: KeySpace, id: KeySpace)
    requires Layout(rs, ls, whole, ik, scope, id)
    requires Aligned(lz, ls, owners, ik, hook, [])
    requires forall i :: 0 <= i < |owners| ==> ScopeOf(hook, owners[i]) == scope
    ensures Agree(rs, lz, ls, id)
  {
    forall i | 0 <= i < |ls|
      ensures lz[i].path == ls[i].path
      ensures lz[i].suppliers.EntityID(id) == rs[0].keys
      ensures lz[i].suppliers.EntityProp(id) == rs[1 + i].keys
      ensures lz[i].suppliers.PropIndex([ls[i].value] + id) == rs[1 + |ls| + i].keys
    {
      AgreeAt(rs, lz, ls, whole, owners, ik, hook, scope, id, i);
    }
  }

  /** The agreement at one leaf, from the eager layout and the lazy alignment. */
  lemma AgreeAt(rs: seq<KeysValue>, lz: seq<LazyLeaf>, ls: seq<LeafAt>, whole: Value, owners: seq<Record>,
                ik: IndexKeysHook, hook: Option<Record -> KeySpace>, scope: KeySpace, id: KeySpace, i: nat)
    requires Layout(rs, ls, whole, ik, scope, id)
    requires Aligned(lz, ls, owners, ik, hook, [])
    requires i < |lz|
    requires ScopeOf(hook, owners[i]) == scope
    ensures lz[i].path == ls[i].path
    ensures lz[i].suppliers.EntityID(id) == rs[0].keys
    ensures lz[i].suppliers.EntityProp(id) == rs[1 + i].keys
    ensures lz[i].suppliers.PropIndex([ls[i].value] + id) == rs[1 + |ls| + i].keys
  {
    var path := PathKeys(ls[i].path);
    assert [] + path == path;
    assert lz[i].suppliers == Suppliers(ik, scope, path);
    assert rs[1 + i].keys == ik(EntityProp, scope) + id + path;
    assert rs[1 + |ls| + i].keys == ik(PropIndex, scope) + path + [ls[i].value] + id;
  }

  /** An entity with one nested object: `{ a: { b: 1 } }`. */
  const NestedEntity: Record := [("a", Obj([("b", Leaf(Num(1)))]))]

  /** A scope hook that does look at its argument: the record's first field name. */
  function FirstFieldScope(r: Record): KeySpace {
    if |r| == 0 then [] else [Text(r[0].0)]
  }

  function FixedIdentity(r: Record): KeySpace {
    [Text("e1")]
  }

  /**
   * Why agreement needs a scope hook that ignores its argument: the eager
   * property key of leaf `a.b` is scoped by the root (`"a"`), the lazy one by
   * the inner record holding the leaf (`"b"`).
   */
  lemma ScopeHookSeesInnerRecord()
    ensures var rs := EntityKeysValues(NestedEntity, EntityOptions(Some(FirstFieldScope), Some(FixedIdentity), None)).value;
      var lz := LazyLeaves(EntityIndexKeys(NestedEntity, LazyOptions(Some(FirstFieldScope), None)));
      && |rs| == 3
      && |lz| == 1
      && rs[1].keys[0] == Text("a")
      && lz[0].suppliers.EntityProp([Text("e1")])[0] == Text("b")
  {
    var entity := NestedEntity;
    var sub := [("b", Leaf(Num(1)))];
    var eopts := EntityOptions(Some(FirstFieldScope), Some(FixedIdentity), None);
    var lopts := LazyOptions(Some(FirstFieldScope), None);
    var id := [Text("e1")];
    assert entity[1..] == [] && sub[1..] == [];
    assert Leaves(sub) == [LeafAt(["b"], Num(1))];
    assert LeafOwners(sub, sub) == [sub];
    assert LeafOwners(entity, entity) == [sub];
    assert |Leaves(entity)| == 1;
    assert IdentityKeys(eopts.identityKeys, entity).value == id;
    EntityRecordsLayout(entity, DefaultIndexKeys, [Text("a")], id);
    LazyLeavesAlign(entity, entity, [], lopts);
    var rs := EntityKeysValues(entity, eopts).value;
    var lz := LazyLeaves(EntityIndexKeys(entity, lopts));
    assert ScopeOf(eopts.scopeKeys, entity) == [Text("a")];
    assert ScopeOf(lopts.scopeKeys, sub) == [Text("b")];
    assert rs[1].keys == DefaultIndexKeys(EntityProp, [Text("a")]) + id + PathKeys(Leaves(entity)[0].path);
    assert lz[0].suppliers.propPrefix == DefaultIndexKeys(EntityProp, [Text("b")]);
  }
}

=== FILE: materialize.dfy ===
/**
 * The eager materialiser `entityKeysValues`: one ENTITY_ID record, then one
 * ENTITY_PROP record per leaf, then one PROP_INDEX record per leaf.
 */
module Materialize {
  import opened Wrappers
  import opened KeySpaces
  import opened Records
  import opened Json
  import opened Flatten

  /** An `indexKeys` policy: nature and scope keys to the key prefix of that nature. */
  type IndexKeysHook = (Nature, KeySpace) -> KeySpace

  /** The optional hooks of the materialiser; an absent hook is `None`. */
  datatype EntityOptions = EntityOptions(
    scopeKeys: Option<Record -> KeySpace>,
    identityKeys: Option<Record -> KeySpace>,
    indexKeys: Option<IndexKeysHook>)

  /** The `indexKeys` policy in force: the caller's, or scope keys then `"$" + nature`. */
  function IndexKeysOf(hook: Option<IndexKeysHook>): IndexKeysHook {
    if hook.Some? then hook.value else DefaultIndexKeys
  }

  /** The scope keys of a record: the hook's answer, or none. */
  function ScopeOf(hook: Option<Record -> KeySpace>, r: Record): KeySpace {
    if hook.Some? then hook.value(r) else []
  }

  /**
   * The identity keys of an entity: the hook's answer, or the single string
   * part holding the entity's JSON text, which fails on bigints.
   */
  function IdentityKeys(hook: Option<Record -> KeySpace>, entity: Record): (r: Result<KeySpace, JsonError>)
    ensures r.Failure? <==> hook.None? && ContainsBig(entity)
    ensures hook.Some? ==> r == Success(hook.value(entity))
    ensures r.Success? && hook.None? ==> |r.value| == 1 && r.value[0].Text?
  {
    if hook.Some? then Success(hook.value(entity))
    else
      var text :- Stringify(entity);
      Success([Text(text)])
  }

  /** The hooks of the secondary-index pass: key `path ++ [leaf] ++ id`, value the whole entity. */
  function PropIndexOptions(entity: Record, entityIdKeys: KeySpace): Options {
    Options(
      Some((keys: KeySpace, value: Scalar) => Keep(keys + [value] + entityIdKeys)),
      Some((_: Scalar) => Obj(entity)))
  }

  /**
   * `entityKeysValues(entity, options)`. It fails only when the default
   * identity is needed and the entity holds a bigint; otherwise it yields the
   * records of `EntityRecords` for the index policy, scope and identity in force.
   */
  function EntityKeysValues(entity: Record, options: EntityOptions): (r: Result<seq<KeysValue>, JsonError>)
    ensures r.Failure? <==> options.identityKeys.None? && ContainsBig(entity)
    ensures r.Success? ==> |r.value| == 1 + 2 * LeafCount(entity)
  {
    var indexKeys := IndexKeysOf(options.indexKeys);
    var scopeKeys := ScopeOf(options.scopeKeys, entity);
    var entityIdKeys :- IdentityKeys(options.identityKeys, entity);
    Success(EntityRecords(entity, indexKeys, scopeKeys, entityIdKeys))
  }

  /**
   * The records of an entity once its index policy, scope keys and identity
   * keys are known: the identity record, then the property pass, then the
   * index pass. There is one record for the identity plus two per leaf.
   */
  function EntityRecords(entity: Record, indexKeys: IndexKeysHook, scopeKeys: KeySpace, entityIdKeys: KeySpace): (r: seq<KeysValue>)
    ensures |r| == 1 + 2 * LeafCount(entity)
  {
    var entityKV := KeysValue(indexKeys(EntityId, scopeKeys) + entityIdKeys, Obj(entity));
    var propValueKVs := KeysValues(entity, indexKeys(EntityProp, scopeKeys) + entityIdKeys, NoOptions);
    var entityIndexKVs := KeysValues(entity, indexKeys(PropIndex, scopeKeys), PropIndexOptions(entity, entityIdKeys));
    [entityKV] + propValueKVs + entityIndexKVs
  }

  /**
   * The hooks of the secondary-index pass never drop a leaf: each leaf yields
   * the record keyed by its default key, the leaf and the identity keys, with
   * the whole entity as value.
   */
  lemma PropIndexHooks(entity: Record, id: KeySpace)
    ensures NeverSkips(PropIndexOptions(entity, id))
    ensures forall path: KeySpace, leaf: Scalar ::
      Emit(path, leaf, PropIndexOptions(entity, id)) == [KeysValue(path + [leaf] + id, Obj(entity))]
  {
  }

  /** The secondary-index pass yields, for the i-th leaf, key `prefix ++ path ++ [leaf] ++ id` and the whole entity. */
  lemma PropIndexRecords(entity: Record, prefix: KeySpace, id: KeySpace)
    ensures var r := KeysValues(entity, prefix, PropIndexOptions(entity, id));
      var ls := Leaves(entity);
      && |r| == |ls|
      && forall i :: 0 <= i < |ls| ==>
        r[i] == KeysValue(prefix + PathKeys(ls[i].path) + [ls[i].value] + id, Obj(entity))
  {
    var options := PropIndexOptions(entity, id);
    KeysValuesNoSkip(entity, prefix, options);
    var r := KeysValues(entity, prefix, options);
    var ls := Leaves(entity);
    forall i | 0 <= i < |ls|
      ensures r[i] == KeysValue(prefix + PathKeys(ls[i].path) + [ls[i].value] + id, Obj(entity))
    {
      assert EmittedValue(ls[i].value, options) == Obj(entity);
    }
  }

  /**
   * The record layout of an entity with L leaves: record 0 is the identity
   * record, records 1..L the property records in leaf order, records L+1..2L
   * the secondary-index records in the same order.
   */
  ghost predicate Layout(rs: seq<KeysValue>, ls: seq<LeafAt>, whole: Value, ik: IndexKeysHook, scope: KeySpace, id: KeySpace) {
    var l := |ls|;
    && |rs| == 1 + 2 * l
    && rs[0] == KeysValue(ik(EntityId, scope) + id, whole)
    && (forall i :: 0 <= i < l ==>
          rs[1 + i] == KeysValue(ik(EntityProp, scope) + id + PathKeys(ls[i].path), Leaf(ls[i].value)))
    && (forall i :: 0 <= i < l ==>
          rs[1 + l + i] == KeysValue(ik(PropIndex, scope) + PathKeys(ls[i].path) + [ls[i].value] + id, whole))
  }

  /** The records of an entity have exactly the layout above, for any index policy, scope and identity. */
  lemma EntityRecordsLayout(entity: Record, ik: IndexKeysHook, scope: KeySpace, id: KeySpace)
    ensures |Leaves(entity)| == LeafCount(entity)
    ensures Layout(EntityRecords(entity, ik, scope, id), Leaves(entity), Obj(entity), ik, scope, id)
  {
    var props := KeysValues(entity, ik(EntityProp, scope) + id, NoOptions);
    var indexes := KeysValues(entity, ik(PropIndex, scope), PropIndexOptions(entity, id));
    KeysValuesDefault(entity, ik(EntityProp, scope) + id);
    PropIndexRecords(entity, ik(PropIndex, scope), id);
    Splice(KeysValue(ik(EntityId, scope) + id, Obj(entity)), props, indexes);
  }

  lemma Splice<T>(head: T, a: seq<T>, b: seq<T>)
    ensures var s := [head] + a + b;
      && |s| == 1 + |a| + |b|
      && s[0] == head
      && (forall i :: 0 <= i < |a| ==> s[1 + i] == a[i])
      && (forall i :: 0 <= i < |b| ==> s[1 + |a| + i] == b[i])
  {
  }

  /** Which nature the record at position `i` of a materialisation with `l` leaves has. */
  function NatureAt(i: nat, l: nat): Nature {
    if i == 0 then EntityId else if i <= l then EntityProp else PropIndex
  }

  /** Under the default policy, record `i` of a layout begins with the scope keys and the marker of its nature. */
  lemma DefaultKeyHead(rs: seq<KeysValue>, ls: seq<LeafAt>, whole: Value, scope: KeySpace, id: KeySpace, i: nat)
    requires Layout(rs, ls, whole, DefaultIndexKeys, scope, id)
    requires i < |rs|
    ensures |scope| < |rs[i].keys|
    ensures rs[i].keys[..|scope| + 1] == DefaultIndexKeys(NatureAt(i, |ls|), scope)
  {
    var l := |ls|;
    var n := NatureAt(i, l);
    var rest: KeySpace;
    if i == 0 {
      rest := id;
    } else if i <= l {
      rest := id + PathKeys(ls[i - 1].path);
      assert rs[1 + (i - 1)].keys == DefaultIndexKeys(EntityProp, scope) + id + PathKeys(ls[i - 1].path);
    } else {
      rest := PathKeys(ls[i - 1 - l].path) + [ls[i - 1 - l].value] + id;
      assert rs[1 + l + (i - 1 - l)].keys ==
        DefaultIndexKeys(PropIndex, scope) + PathKeys(ls[i - 1 - l].path) + [ls[i - 1 - l].value] + id;
    }
    assert rs[i].keys == DefaultIndexKeys(n, scope) + rest;
    PrefixOfAppend(DefaultIndexKeys(n, scope), rest);
  }

  lemma PrefixOfAppend<T>(a: seq<T>, b: seq<T>)
    ensures (a + b)[..|a|] == a
  {
  }

  /**
   * With the default `indexKeys` (any scope keys, any identity keys), every
   * record key starts with the scope keys and holds its own nature's marker
   * right after them; so records of different natures differ at position
   * |scope|, and, among the records of one materialisation, a scan bounded
   * by one nature's prefix never meets another nature's record.
   */
  lemma DefaultPrefixIsolation(entity: Record, scope: KeySpace, id: KeySpace)
    ensures var rs := EntityRecords(entity, DefaultIndexKeys, scope, id);
      var l := LeafCount(entity);
      && (forall i :: 0 <= i < |rs| ==>
            && |scope| < |rs[i].keys|
            && rs[i].keys[..|scope|] == scope
            && NatureOfMarker(rs[i].keys[|scope|]) == Some(NatureAt(i, l)))
      && (forall i, j :: 0 <= i < |rs| && 0 <= j < |rs| && NatureAt(i, l) != NatureAt(j, l) ==>
            rs[i].keys[..|scope| + 1] != rs[j].keys[..|scope| + 1])
  {
    var rs := EntityRecords(entity, DefaultIndexKeys, scope, id);
    var ls := Leaves(entity);
    EntityRecordsLayout(entity, DefaultIndexKeys, scope, id);
    LayoutIsolation(rs, ls, Obj(entity), scope, id);
  }

  /** Prefix isolation for any record list with the default layout. */
  lemma LayoutIsolation(rs: seq<KeysValue>, ls: seq<LeafAt>, whole: Value, scope: KeySpace, id: KeySpace)
    requires Layout(rs, ls, whole, DefaultIndexKeys, scope, id)
    ensures forall i :: 0 <= i < |rs| ==>
      && |scope| < |rs[i].keys|
      && rs[i].keys[..|scope|] == scope
      && NatureOfMarker(rs[i].keys[|scope|]) == Some(NatureAt(i, |ls|))
    ensures forall i, j :: 0 <= i < |rs| && 0 <= j < |rs| && NatureAt(i, |ls|) != NatureAt(j, |ls|) ==>
      rs[i].keys[..|scope| + 1] != rs[j].keys[..|scope| + 1]
  {
    var l := |ls|;
    forall i | 0 <= i < |rs|
      ensures |scope| < |rs[i].keys|
      ensures rs[i].keys[..|scope|] == scope
      ensures NatureOfMarker(rs[i].keys[|scope|]) == Some(NatureAt(i, l))
    {
      DefaultKeyHead(rs, ls, whole, scope, id, i);
      var k := rs[i].keys;
      DefaultIndexKeysShape(NatureAt(i, l), scope, k[|scope| + 1..]);
      assert k == DefaultIndexKeys(NatureAt(i, l), scope) + k[|scope| + 1..];
    }
    forall i, j | 0 <= i < |rs| && 0 <= j < |rs| && NatureAt(i, l) != NatureAt(j, l)
      ensures rs[i].keys[..|scope| + 1] != rs[j].keys[..|scope| + 1]
    {
      DefaultKeyHead(rs, ls, whole, scope, id, i);
      DefaultKeyHead(rs, ls, whole, scope, id, j);
      MarkersDistinct(NatureAt(i, l), NatureAt(j, l));
      assert DefaultIndexKeys(NatureAt(i, l), scope)[|scope|] != DefaultIndexKeys(NatureAt(j, l), scope)[|scope|];
    }
  }

  /** The entity of the worked example: `{ name: "Ada", address: { city: "London" } }`. */
  const AdaEntity: Record := [("name", Leaf(Text("Ada"))), ("address", Obj([("city", Leaf(Text("London")))]))]

  /** The identity hook of the worked example. */
  function AdaIdentity(r: Record): KeySpace {
    [Text("e1")]
  }

  /** The records of the worked example, in order. */
  const AdaRecords: seq<KeysValue> := [
    KeysValue([Text("$ENTITY_ID"), Text("e1")], Obj(AdaEntity)),
    KeysValue([Text("$ENTITY_PROP"), Text("e1"), Text("name")], Leaf(Text("Ada"))),
    KeysValue([Text("$ENTITY_PROP"), Text("e1"), Text("address"), Text("city")], Leaf(Text("London"))),
    KeysValue([Text("$PROP_INDEX"), Text("name"), Text("Ada"), Text("e1")], Obj(AdaEntity)),
    KeysValue([Text("$PROP_INDEX"), Text("address"), Text("city"), Text("London"), Text("e1")], Obj(AdaEntity))]

  /**
   * A worked example: the entity above with no scope and identity `["e1"]`
   * yields exactly these five records, in this order.
   */
  lemma AdaExample()
    ensures EntityKeysValues(AdaEntity, EntityOptions(None, Some(AdaIdentity), None)) == Success(AdaRecords)
  {
    var options := EntityOptions(None, Some(AdaIdentity), None);
    var id := [Text("e1")];
    assert IdentityKeys(options.identityKeys, AdaEntity).value == id;
    EntityRecordsLayout(AdaEntity, DefaultIndexKeys, [], id);
    AdaLeaves();
    var rs := EntityKeysValues(AdaEntity, options).value;
    assert Layout(rs, Leaves(AdaEntity), Obj(AdaEntity), DefaultIndexKeys, [], id);
    AdaLayout(rs);
  }

  lemma AdaLeaves()
    ensures Leaves(AdaEntity) == [LeafAt(["name"], Text("Ada")), LeafAt(["address", "city"], Text("London"))]
  {
    var entity := AdaEntity;
    var sub := [("city", Leaf(Text("London")))];
    assert entity[1..] == [("address", Obj(sub))];
    assert entity[1..][1..] == [];
    assert sub[1..] == [];
    assert Leaves(sub) == [LeafAt(["city"], Text("London"))];
    assert ["address"] + ["city"] == ["address", "city"];
    assert Under("address", Leaves(sub)) == [LeafAt(["address", "city"], Text("London"))];
    assert Leaves(entity[1..]) == [LeafAt(["address", "city"], Text("London"))];
  }

  lemma AdaLayout(rs: seq<KeysValue>)
    requires Layout(rs, [LeafAt(["name"], Text("Ada")), LeafAt(["address", "city"], Text("London"))],
                    Obj(AdaEntity), DefaultIndexKeys, [], [Text("e1")])
    ensures rs == AdaRecords
  {
    assert "$" + "ENTITY_ID" == "$ENTITY_ID";
    assert "$" + "ENTITY_PROP" == "$ENTITY_PROP";
    assert "$" + "PROP_INDEX" == "$PROP_INDEX";
    assert PathKeys(["name"]) == [Text("name")];
    assert PathKeys(["address", "city"]) == [Text("address"), Text("city")];
    var ls := [LeafAt(["name"], Text("Ada")), LeafAt(["address", "city"], Text("London"))];
    var id := [Text("e1")];
    var prop := [Text("$ENTITY_PROP")];
    var index := [Text("$PROP_INDEX")];
    assert DefaultIndexKeys(EntityId, []) == [Text("$ENTITY_ID")];
    assert DefaultIndexKeys(EntityProp, []) == prop;
    assert DefaultIndexKeys(PropIndex, []) == index;
    assert rs[0] == AdaRecords[0];
    assert rs[1 + 0] == KeysValue(prop + id + PathKeys(ls[0].path), Leaf(ls[0].value));
    assert prop + id + [Text("name")] == AdaRecords[1].keys;
    assert rs[1 + 1] == KeysValue(prop + id + PathKeys(ls[1].path), Leaf(ls[1].value));
    assert prop + id + [Text("address"), Text("city")] == AdaRecords[2].keys;
    assert rs[1 + 2 + 0] == KeysValue(index + PathKeys(ls[0].path) + [ls[0].value] + id, Obj(AdaEntity));
    assert index + [Text("name")] + [Text("Ada")] + id == AdaRecords[3].keys;
    assert rs[1 + 2 + 1] == KeysValue(index + PathKeys(ls[1].path) + [ls[1].value] + id, Obj(AdaEntity));
    assert index + [Text("address"), Text("city")] + [Text("London")] + id == AdaRecords[4].keys;
  }
}

=== FILE: records.dfy ===
/**
 * Entities as the index sees them: a record is a sequence of named fields in
 * property-enumeration order (ordinary own property keys, section 10.1.11.1 of
 * ECMA-262); arrays are records keyed "0", "1", ... . A field holds either a
 * scalar leaf or a nested record.
 */
module Records {
  import opened KeySpaces

  /**
   * A field value: a scalar leaf (string, number, bigint, boolean, null or
   * undefined), or anything `typeof` calls "object" and is not null.
   */
  datatype Value = Leaf(part: Scalar) | Obj(fields: seq<(string, Value)>)

  /** A record's fields, in enumeration order. */
  type Record = seq<(string, Value)>

  /** One scalar leaf of an entity together with the field names leading to it. */
  datatype LeafAt = LeafAt(path: seq<string>, value: Scalar)

  /** Puts the field name `name` in front of every leaf path. */
  function Under(name: string, ls: seq<LeafAt>): (r: seq<LeafAt>)
    ensures |r| == |ls|
    ensures forall i :: 0 <= i < |r| ==> r[i] == LeafAt([name] + ls[i].path, ls[i].value)
  {
    seq(|ls|, i requires 0 <= i < |ls| => LeafAt([name] + ls[i].path, ls[i].value))
  }

  /**
   * The scalar leaves of a record, depth first in field order. This is the
   * reference enumeration the flattener and the lazy builder are measured against.
   */
  function Leaves(r: Record): seq<LeafAt>
    decreases r
  {
    if |r| == 0 then []
    else
      var (name, v) := r[0];
      assert v < r[0];
      var here := match v
        case Leaf(p) => [LeafAt([name], p)]
        case Obj(sub) => Under(name, Leaves(sub));
      here + Leaves(r[1..])
  }

  /** The number of scalar leaves of a record, counted field by field. */
  function LeafCount(r: Record): nat
    decreases r
  {
    if |r| == 0 then 0
    else
      var v := r[0].1;
      assert v < r[0];
      (match v
       case Leaf(_) => 1
       case Obj(sub) => LeafCount(sub))
      + LeafCount(r[1..])
  }

  /** The leaf enumeration and the leaf count agree, and every leaf path is non-empty. */
  lemma {:induction false} LeavesCount(r: Record)
    ensures |Leaves(r)| == LeafCount(r)
    ensures forall i :: 0 <= i < |Leaves(r)| ==> |Leaves(r)[i].path| >= 1
    decreases r
  {
    if |r| > 0 {
      var v := r[0].1;
      assert v < r[0];
      LeavesCount(r[1..]);
      match v
      case Leaf(_) =>
      case Obj(sub) => LeavesCount(sub);
    }
  }

  /** A path of field names as key parts, one string part per name. */
  function PathKeys(path: seq<string>): (k: KeySpace)
    ensures |k| == |path|
  {
    seq(|path|, i requires 0 <= i < |path| => Text(path[i]))
  }

  /** Some leaf in the list is a bigint. */
  predicate BigAmong(ls: seq<LeafAt>) {
    exists i :: 0 <= i < |ls| && ls[i].value.Big?
  }

  lemma BigAmongAppend(a: seq<LeafAt>, b: seq<LeafAt>)
    ensures BigAmong(a + b) <==> BigAmong(a) || BigAmong(b)
  {
    if BigAmong(a + b) {
      var i :| 0 <= i < |a + b| && (a + b)[i].value.Big?;
      if i >= |a| {
        assert b[i - |a|] == (a + b)[i];
      }
    }
    if BigAmong(a) {
      var i :| 0 <= i < |a| && a[i].value.Big?;
      assert (a + b)[i] == a[i];
    }
    if BigAmong(b) {
      var i :| 0 <= i < |b| && b[i].value.Big?;
      assert (a + b)[|a| + i] == b[i];
    }
  }

  /** Whether some leaf of the record is a bigint. */
  predicate ContainsBig(r: Record) {
    BigAmong(Leaves(r))
  }

  /**
   * Two records of the same shape: the same field names in the same order,
   * with a nested record in the same places, at every depth. Leaf values may differ.
   */
  ghost predicate SameShape(a: Record, b: Record)
    decreases a
  {
    && |a| == |b|
    && forall i :: 0 <= i < |a| ==>
      && a[i].0 == b[i].0
      && (a[i].1.Obj? <==> b[i].1.Obj?)
      && (a[i].1.Obj? && b[i].1.Obj? ==> (assert a[i].1 < a[i]; SameShape(a[i].1.fields, b[i].1.fields)))
  }
}

=== FILE: wrappers.dfy ===
/** Option and Result, failure-compatible so that `:-` can propagate errors. */
module Wrappers {

  datatype Option<+T> = None | Some(value: T)

  datatype Result<+R, +E> = Success(value: R) | Failure(error: E) {

    predicate IsFailure() {
      Failure?
    }

    function PropagateFailure<U>(): Result<U, E>
      requires Failure?
    {
      Failure(error)
    }

    function Extract(): R
      requires Success?
    {
      value
    }
  }
}
